=== FILE: README.md ===
# Storefront core in Dafny

A model of the business logic of a small Django storefront (`shop`): the
coupon rules, the session-held cart, the checkout state machine, the product
listing filters and the one-review-per-user upsert. Request handling is
modelled as pure functions from the session and the tables to the new
session, the new tables and the response. The ORM becomes in-memory maps
and sequences, money is an exact rational (`real` in place of `float` and `Decimal`, with no rounding to cents), and the current
time is a parameter.

| file | module | models |
|---|---|---|
| `wrappers.dfy` | `Wrappers` | `Option`, for absent session keys and `None` |
| `text.dfy` | `Text` | `str.strip()`, `str.upper()`, `icontains`, the coupon-code normalisation |
| `models.dfy` | `Models` | the records of `shop/models.py`, their choice sets, `Coupon.is_valid`, `Coupon.get_discount_amount` |
| `cart.dfy` | `SessionCart` | the session, add-to-cart, `cart_view` total, `remove_from_cart`, `update_cart_quantity` |
| `catalog.dfy` | `Catalog` | the filter chain of `product_list` |
| `checkout.dfy` | `Checkout` | `checkout`: remove coupon, apply coupon, place order, and the GET page |
| `reviews.dfy` | `Reviews` | the upsert in `add_review` |

Conventions:

- Session keys may be absent. `Session` holds an `Option` per key, and
  `CartOf`, `CouponCodeOf` and `StoredDiscount` give the defaults the views
  use (`[]`, `''`, `0`).
- Coupons are a map keyed by their unique code.
- An order's id is its position in the order table. An order item names its
  order by that id.
- The review table is kept in creation order. The model's ordering is newest
  first, so the review `.first()` returns is the last match in the table.
- A lookup that raises an unhandled `DoesNotExist` becomes a precondition.
  This covers the product and the variant in add-to-cart, the product in
  `add_review`, and the stored coupon when an order is placed.
  `Checkout.Consistent` is an invariant that every checkout and cart request
  preserves (`StepPreservesConsistency`, `CartViewsPreserveConsistency`). It
  implies the place-order precondition, so from a consistent state no
  checkout request fails.
- A coupon stores its discount type as text, and `DiscountAmount` reads it
  through `DiscountTypeOf`. Sizes, colours and order statuses are stored as
  the enums themselves; `ParseSize`, `ParseColor`, `ParseStatus` and
  `ParseRating` are standalone facts about the choice tables and no
  operation calls them.

Behaviour modelled as written, not corrected:

- A fixed discount is not capped, so the amount to pay can be negative
  (`FixedDiscountIgnoresTotal`).
- Placing an order charges the discount stored when the coupon was applied.
  A GET shows a discount recomputed on the current cart, so the two can
  differ (`StoredDiscountIsCharged`).
- Placing an order does not check the coupon again. Two sessions can both
  apply a coupon's last use and both order, which pushes `times_used` past
  `max_uses` (`UsageCapCanBeExceeded`). This needs no concurrency: ordinary
  interleaved requests are enough.

Two guarantees the code does not enforce:

- The rating is stored as submitted. `Model.save()` does not check it
  against `RATING_CHOICES`.
- No database constraint makes (product, user) unique. At most one review
  per pair holds only because the view upserts. `AddReviewKeepsOnePerPair`
  and `RepeatedReviewsLeaveOne` prove that it does.

## Model

| member | source | states |
|---|---|---|
| Text.Strip | shop/views.py:127 | `strip()` returns an infix of the entered code that neither starts nor ends with whitespace, and everything it removed is whitespace |
| Text.NormalizeCode | shop/views.py:127 | the normalised coupon code is the block of the entered text left after dropping the whitespace around it, with each character upper-cased in place; it has no lower-case ASCII letter and no surrounding whitespace |
| Text.NormalizeCodeIdempotent | shop/views.py:127 | normalising a code that is already normalised leaves it unchanged |
| Text.NormalizeCode10Example | shop/views.py:127 | a code entered as " code10 " is looked up as "CODE10" |
| Models.ParseSize | shop/models.py:21-35 | the size choice codes S, M, L, XL round-trip: parsing a size's code gives that size back, and only those four codes parse |
| Models.ParseColor | shop/models.py:27-36 | the colour choice codes round-trip in the same way |
| Models.ParseStatus | shop/models.py:52-73 | the order status codes round-trip in the same way |
| Models.ParseRating | shop/models.py:91-101 | a stored rating is one of the declared choices exactly when it is 1 to 5, and that choice's value is the stored integer |
| Models.DiscountTypeOf | shop/models.py:135-139 | only the exact text "percentage" selects the percentage rule; every other stored type is read as a fixed amount. `DiscountAmount` reads the coupon's stored text through it. |
| Models.IsValid | shop/models.py:129-133 | a coupon is valid at an instant only when it is active, has uses left, and the instant lies in its window (which is then non-empty); `InvalidityConditions` and `ValidityConditions` give both directions |
| Models.DiscountAmount | shop/models.py:135-139 | under the percentage rule the discount is `discount_value` percent of the total (the discount times 100 equals the total times the rate); under the fixed rule it is `discount_value` whatever the total |
| Models.Used | shop/views.py:188-191 | placing an order with a stored code raises that coupon's `times_used` by exactly one and changes none of its other fields |
| Models.InvalidityConditions | shop/models.py:129-133 | each condition is necessary: an inactive coupon, an instant outside the window, or `times_used >= max_uses` makes the coupon invalid whatever else holds |
| Models.ValidityConditions | shop/models.py:129-133 | the three conditions together make the coupon valid, and both ends of the window count as inside it |
| Models.UseTowardsCap | shop/models.py:129-133 | recording a use never makes an invalid coupon valid, and the use that reaches `max_uses` makes the coupon invalid |
| Models.PercentageDiscountIsLinear | shop/models.py:136-137 | a percentage discount is additive and scales with the total, and on a total of 100 it equals `discount_value`; so it is `total * discount_value / 100` |
| Models.PercentageDiscountWithinTotal | shop/models.py:136-137 | a rate from 0 to 100 on a non-negative total gives a discount from 0 up to the total |
| Models.FixedDiscountIgnoresTotal | shop/models.py:138-139 | a fixed discount equals `discount_value` for every total and is not capped, so a smaller total leaves a negative amount to pay |
| SessionCart.AddToCart | shop/views.py:46-63 | a chosen variant appends exactly one line. A missing cart is created first. Earlier lines are kept. The new line takes the product's name and current price, the variant's size and colour labels, and quantity 1. With no variant nothing changes. |
| SessionCart.RemoveAt | shop/views.py:84-85 | an in-range index removes that line and keeps the others in order, one shorter; any other index leaves the cart as it was |
| SessionCart.RemoveFromCart | shop/views.py:81-89 | for an in-range index the cart loses that line, the earlier lines stay put and the later ones move up one place, and the total falls by that line's price times quantity; the coupon keys are kept; any other index leaves the session as it was |
| SessionCart.SetQuantity | shop/views.py:96-97 | only the quantity of the line at an in-range index changes, and only for a positive quantity; every other line and field is kept |
| SessionCart.UpdateCartQuantity | shop/views.py:91-101 | for a POST with an in-range index and a positive quantity (an absent field counts as 1) only that line's quantity changes, to the one sent; every other line, every other field and the coupon keys are kept, and the total changes by the line's price times the new quantity less its old amount. Anything else leaves the session as it was. |
| SessionCart.Total | shop/views.py:73 | the cart total, the sum of price times quantity over the lines. It carries no contract of its own; `SumTotal`, `TotalConcat`, `TotalNonNegative` and the `TotalAfter` lemmas pin it down |
| SessionCart.SumTotal | shop/views.py:71-73 | the running sum over the lines equals the cart total, the sum of price times quantity |
| SessionCart.TotalConcat | shop/views.py:73 | the total of two carts laid end to end is the sum of their totals |
| SessionCart.TotalNonNegative | shop/views.py:73 | a cart with positive quantities and non-negative prices totals at least 0, and the empty cart totals 0 |
| SessionCart.TotalAfterAppend | shop/views.py:55-62 | adding a line raises the total by that line's price times quantity |
| SessionCart.TotalAfterRemove | shop/views.py:84-85 | removing an in-range line lowers the total by that line's amount |
| SessionCart.TotalAfterSetQuantity | shop/views.py:96-97 | a quantity change replaces that line's old amount with its price times the new quantity |
| SessionCart.CartViewsKeepWellFormed | shop/views.py:55-97 | adding, removing and updating keep every quantity positive |
| Catalog.Keep | shop/views.py:17-31 | one `.filter(...)` keeps exactly the products that satisfy its criterion |
| Catalog.ProductList | shop/views.py:10-31 | a product is listed if and only if it is in the catalog and every present filter matches it: name contains the search ignoring case, category equal, price at least the minimum, price at most the maximum |
| Catalog.ChainIsConjunction | shop/views.py:14-31 | applying the present filters one after another gives the same list, in catalog order, as a single pass that keeps products satisfying them all |
| Catalog.CriteriaMeaning | shop/views.py:15-31 | the filters built from the query are satisfied exactly when every present parameter matches; an absent one imposes nothing |
| Catalog.NoFiltersListEverything | shop/views.py:11-31 | with no filter present the whole catalog is listed, in order |
| Catalog.SearchIgnoresCase | shop/views.py:16-17 | searching for the upper-cased text lists the same products |
| Checkout.ItemsFor | shop/views.py:178-185 | one order item per cart line, in cart order, each copying name, variant text, price and quantity and naming the new order |
| Checkout.RemoveCoupon | shop/views.py:114-123 | the stored code becomes empty and the stored discount 0; cart and tables are untouched |
| Checkout.ApplyCoupon | shop/views.py:126-158 | an unknown or invalid code leaves the session unchanged and shows the matching error. A valid one stores the normalised code and its discount on the current total, and shows the total less that discount. Tables are untouched. |
| Checkout.PlaceOrder | shop/views.py:161-199 | appends one pending order for the cart total less the stored discount (default 0), then one item per line in order. The stored coupon gets exactly one more use, and no other coupon changes; with no code stored, the coupon table is unchanged. The cart, code and discount are cleared, and the response redirects to the new order. |
| Checkout.ShowCheckout | shop/views.py:201-216 | a GET changes nothing. The page shows the session's cart and its total. The discount shown is recomputed on the current total when the stored code names a coupon still valid, and is 0 otherwise. The amount to pay shown is the total less it. |
| Checkout.Step | shop/views.py:103-216 | a POST takes one branch, with remove-coupon first and then apply-coupon. Remove-coupon renders the removed notice with the code and discount cleared. Apply-coupon renders the unknown, expired or applied notice; it is applied exactly when the normalised code names a coupon valid now, and then the session holds that code and its discount on the current total, otherwise the session is unchanged. Only the branch with neither marker creates an order, exactly one. A GET changes nothing. |
| Checkout.StepPreservesConsistency | shop/views.py:103-216 | from a consistent state every checkout request can be handled and leaves the state consistent: any stored code names a coupon, coupons stay filed under their code, items belong to orders, quantities stay positive |
| Checkout.CartViewsPreserveConsistency | shop/views.py:42-101 | the cart views keep a consistent state consistent |
| Checkout.ItemsTotalMatchesCart | shop/views.py:178-185 | the order items add up to the cart total they were copied from |
| Checkout.PlacedOrderTotal | shop/views.py:162-185 | the order's total is the sum of its items less the stored discount |
| Checkout.StoredDiscountIsCharged | shop/views.py:139-215 | the discount stored at apply time is what is charged. A coupon applied before the cart grows charges 190.00 while the page shows 180.00. |
| Checkout.UsageCapCanBeExceeded | shop/views.py:132-191 | two sessions that both apply a coupon's last use and then both order leave it at `max_uses + 1` uses |
| Checkout.CheckoutScenario | shop/views.py:103-199 | worked example: a 25.00 cart with a 10% coupon gets a 2.50 discount, the order is placed for 22.50 with both lines copied, the coupon gets one use, and the session is cleared |
| Reviews.Newest | shop/views.py:297 | the review found is the pair's newest, or none exists for the pair |
| Reviews.AddReview | shop/views.py:297-311 | after a submission the pair's newest review carries the submitted rating and comment. An existing review is overwritten in place: it stays at its position, stays the pair's newest and keeps its creation time, and every other review is unchanged. Otherwise exactly one review, created at the current instant, is appended and the earlier table is kept. |
| Reviews.AddReviewCounts | shop/views.py:297-311 | the pair's review count becomes 1 when it was 0 and otherwise stays the same; every other pair's reviews are unchanged |
| Reviews.AddReviewKeepsOnePerPair | shop/views.py:297-311 | a table with at most one review per (product, user) keeps that property |
| Reviews.RepeatedReviewsLeaveOne | shop/views.py:297-311 | after any number of submissions by one user for one product, exactly one review of theirs remains, carrying the latest rating and comment, and other pairs' reviews are unchanged |

## Left out

- Float arithmetic. The cart sum uses `float`, and the discount goes through `float`, `str` and `Decimal` (shop/views.py:73, 108, 139, 141, 162). All of this is modelled as exact arithmetic, so rounding differences are not modelled.
- Checkout.PlaceOrder: the stored `total_amount` is a `DecimalField` with two decimal places and ten digits (shop/models.py:72). The model keeps the exact difference, so a 10% coupon on a 25.55 cart gives 22.995 where the table holds 23.00, and a total with more than eight digits before the point, which fails to save in the source, is stored as is.
- Text.NormalizeCode: upper-cases ASCII letters only. Python's `str.upper()` also maps non-ASCII letters, sometimes to longer strings.
- Catalog.ProductList: the name search folds ASCII letters only. This matches the `icontains` lookup on SQLite but not on a database that folds all of Unicode.
- Parsing of request parameters. The category id and price bounds in `product_list`, the quantity in `update_cart_quantity` and the rating in `add_review` arrive already parsed. Malformed values raise unhandled errors in the source.
- Required form fields. A missing contact field gives `None` and a database error in the source. So does a missing `comment` in `add_review` (shop/views.py:294), since `Review.comment` is not nullable, and a missing `rating` (shop/views.py:293) leaves `None` in a non-null integer column. The model takes the contact fields, the comment and the rating as present values.
- Lookups of unknown ids. An unknown product, variant or order id raises an unhandled error in the source. The model makes each a precondition.
- Coupon deletion. Deleting a coupon that a session still holds breaks `Consistent`, and placing an order then fails in the source. Admin actions are not modelled.
- Atomicity. The order, its items and the coupon update are written in one step here. The source saves them one after another without a transaction.
- The race on `times_used` between concurrent requests. It is a concurrency concern. `UsageCapCanBeExceeded` shows the cap can already be overshot by interleaved requests.
- SessionCart.AddToCart: a line's `variantId` is the variant's id. The source stores the raw `variant_id` POST string (shop/views.py:58). Nothing reads the field back, so only its type differs.
- Stock. It is never decremented anywhere, so there is nothing to model.
- Templates, redirects, message text and `session.modified` bookkeeping. The response only records which branch was taken and the values handed to the template.
- Request handling outside the core: `home`, `order_confirmation`, `signup`, `login_view`, `logout_view`, `profile` and the login-required decorators. These delegate to the framework.
- The GET branch of `add_review`, which changes nothing.
- Field length limits such as `max_length`. Django does not check `max_length` on save, and SQLite, the database the model assumes throughout, does not enforce it. Other backends reject over-long values; for example a 15-character phone number (shop/models.py:64) makes `Order.objects.create` fail there.
- Integer width. Integer columns such as `OrderItem.quantity` (shop/models.py:85) hold 64 bits on SQLite and 32 bits on other backends, while `update_cart_quantity` stores any Python `int` (shop/views.py:94-97). The model's `int` is unbounded, so `PlaceOrder` succeeds where the source fails to write an item after the order row is saved.
- The unused `CartItem` model and the `__str__` methods.

=== FILE: cart.dfy ===
/** The session-held cart (shop/views.py, `product_detail` POST,
    `cart_view`, `remove_from_cart`, `update_cart_quantity`): an ordered
    list of snapshot lines kept in the browser session, next to the applied
    coupon code and discount. */
module SessionCart {
  import opened Wrappers
  import opened Models

  /** One cart entry: product and variant details and the unit price as they
      were when the line was added. */
  datatype Line = Line(productId: nat, productName: string, variantId: nat,
                       variantText: string, price: Money, quantity: int)

  type Cart = seq<Line>

  /** The three session keys the storefront uses; an absent key is `None`. */
  datatype Session = Session(cart: Option<Cart>, couponCode: Option<string>,
                             couponDiscount: Option<Money>)

  /** `session.get('cart', [])` */
  function CartOf(s: Session): Cart { s.cart.GetOr([]) }

  /** `session.get('coupon_code', '')` */
  function CouponCodeOf(s: Session): string { s.couponCode.GetOr("") }

  /** `session.get('coupon_discount', 0)` */
  function StoredDiscount(s: Session): Money { s.couponDiscount.GetOr(0.0) }

  /** Every line has a positive quantity. */
  predicate WellFormed(c: Cart) {
    forall i :: 0 <= i < |c| ==> c[i].quantity >= 1
  }

  function LineTotal(l: Line): Money { l.price * l.quantity as real }

  /** The cart total: the sum of price times quantity over the lines. */
  function Total(c: Cart): Money {
    if |c| == 0 then 0.0 else LineTotal(c[0]) + Total(c[1..])
  }

  // ----- Cart operations on the line list -----

  /** The line `product_detail` appends: the product's name and current
      price, the variant's label, quantity 1. */
  function Snapshot(p: Product, v: Variant): Line {
    Line(p.id, p.name, v.id, VariantText(v), p.price, 1)
  }

  /** `cart.pop(index)` when the index is in range; otherwise the cart as it
      was. */
  function RemoveAt(c: Cart, index: int): (r: Cart)
    ensures 0 <= index < |c| ==> |r| == |c| - 1
    ensures 0 <= index < |c| ==> forall i :: 0 <= i < index ==> r[i] == c[i]
    ensures 0 <= index < |c| ==> forall i :: index <= i < |r| ==> r[i] == c[i + 1]
    ensures !(0 <= index < |c|) ==> r == c
  {
    if 0 <= index < |c| then c[..index] + c[index + 1..] else c
  }

  /** Sets the quantity of the line at `index` when the index is in range
      and the quantity positive; otherwise the cart as it was. */
  function SetQuantity(c: Cart, index: int, quantity: int): (r: Cart)
    ensures |r| == |c|
    ensures forall i :: 0 <= i < |c| && i != index ==> r[i] == c[i]
    ensures 0 <= index < |c| && quantity > 0 ==>
              r[index].quantity == quantity && r[index].(quantity := c[index].quantity) == c[index]
    ensures !(0 <= index < |c| && quantity > 0) ==> r == c
  {
    if 0 <= index < |c| && quantity > 0 then c[index := c[index].(quantity := quantity)] else c
  }

  // ----- The views, as session transitions -----

  /** The POST branch of `product_detail`: with a variant chosen, the cart
      (created empty when absent) gains one snapshot line. The chosen variant
      is looked up on its own and need not belong to the product. */
  function AddToCart(s: Session, products: map<nat, Product>, variants: map<nat, Variant>,
                     productId: nat, variantId: Option<nat>): (r: Session)
    requires productId in products
    requires variantId.Some? ==> variantId.value in variants
    ensures variantId.None? ==> r == s
    ensures variantId.Some? ==>
              && r.cart.Some? && |CartOf(r)| == |CartOf(s)| + 1
              && CartOf(r)[..|CartOf(s)|] == CartOf(s)
    ensures variantId.Some? ==>
              var p, v := products[productId], variants[variantId.value];
              var l := CartOf(r)[|CartOf(r)| - 1];
              && l.productId == p.id && l.productName == p.name && l.price == p.price
              && l.variantId == v.id && l.variantText == VariantText(v) && l.quantity == 1
    ensures r.couponCode == s.couponCode && r.couponDiscount == s.couponDiscount
  {
    if variantId.None? then s
    else
      var line := Snapshot(products[productId], variants[variantId.value]);
      s.(cart := Some(CartOf(s) + [line]))
  }

  /** `remove_from_cart`: the session changes only when the index is in
      range; then that line is dropped, the later lines move up one place and
      the total falls by the line's amount. */
  function RemoveFromCart(s: Session, index: int): (r: Session)
    ensures r.couponCode == s.couponCode && r.couponDiscount == s.couponDiscount
    ensures 0 <= index < |CartOf(s)| ==>
              && r.cart.Some? && |CartOf(r)| == |CartOf(s)| - 1
              && CartOf(r)[..index] == CartOf(s)[..index]
              && CartOf(r)[index..] == CartOf(s)[index + 1..]
              && Total(CartOf(r)) == Total(CartOf(s)) - LineTotal(CartOf(s)[index])
    ensures !(0 <= index < |CartOf(s)|) ==> r == s
  {
    var c := CartOf(s);
    if 0 <= index < |c| then
      TotalAfterRemove(c, index);
      s.(cart := Some(RemoveAt(c, index)))
    else s
  }

  /** `update_cart_quantity`: only a POST with an in-range index and a
      positive quantity (1 when the field is absent) changes the session;
      then that line alone takes the new quantity and the total changes by
      the line's price times the difference. */
  function UpdateCartQuantity(s: Session, isPost: bool, index: int, quantity: Option<int>): (r: Session)
    ensures r.couponCode == s.couponCode && r.couponDiscount == s.couponDiscount
    ensures isPost && 0 <= index < |CartOf(s)| && quantity.GetOr(1) > 0 ==>
              && r.cart.Some? && |CartOf(r)| == |CartOf(s)|
              && CartOf(r)[index].quantity == quantity.GetOr(1)
              && CartOf(r)[index].(quantity := CartOf(s)[index].quantity) == CartOf(s)[index]
              && (forall i :: 0 <= i < |CartOf(s)| && i != index ==> CartOf(r)[i] == CartOf(s)[i])
              && Total(CartOf(r)) == Total(CartOf(s)) - LineTotal(CartOf(s)[index])
                                     + CartOf(s)[index].price * quantity.GetOr(1) as real
    ensures !(isPost && 0 <= index < |CartOf(s)| && quantity.GetOr(1) > 0) ==> r == s
  {
    var c := CartOf(s);
    var q := quantity.GetOr(1);
    if isPost && 0 <= index < |c| && q > 0 then
      TotalAfterSetQuantity(c, index, q);
      s.(cart := Some(SetQuantity(c, index, q)))
    else s
  }

  /** The running sum `cart_view` computes, left to right. */
  method SumTotal(c: Cart) returns (total: Money)
    ensures total == Total(c)
  {
    total := 0.0;
    var k := 0;
    while k < |c|
      invariant 0 <= k <= |c|
      invariant total == Total(c[..k])
    {
      TotalConcat(c[..k], [c[k]]);
      assert c[..k + 1] == c[..k] + [c[k]];
      total := total + LineTotal(c[k]);
      k := k + 1;
    }
    assert c[..k] == c;
  }

  // ----- Lemmas about the total -----

  /** The total of two carts laid end to end is the sum of their totals. */
  lemma {:induction false} TotalConcat(a: Cart, b: Cart)
    ensures Total(a + b) == Total(a) + Total(b)
    decreases |a|
  {
    if |a| == 0 {
      assert a + b == b;
    } else {
      assert (a + b)[1..] == a[1..] + b;
      TotalConcat(a[1..], b);
    }
  }

  /** A cart of non-negative prices never totals below zero; the empty cart
      totals exactly zero. */
  lemma {:induction false} TotalNonNegative(c: Cart)
    requires WellFormed(c)
    requires forall i :: 0 <= i < |c| ==> c[i].price >= 0.0
    ensures Total(c) >= 0.0
    ensures |c| == 0 ==> Total(c) == 0.0
    decreases |c|
  {
    if |c| > 0 {
      TotalNonNegative(c[1..]);
    }
  }

  /** Adding a line raises the total by that line's amount. */
  lemma TotalAfterAppend(c: Cart, l: Line)
    ensures Total(c + [l]) == Total(c) + l.price * l.quantity as real
  {
    TotalConcat(c, [l]);
  }

  /** The total of a non-empty suffix: its first line plus the rest. */
  lemma TotalFrom(c: Cart, i: int)
    requires 0 <= i < |c|
    ensures Total(c[i..]) == LineTotal(c[i]) + Total(c[i + 1..])
  {
    assert c[i..][1..] == c[i + 1..];
  }

  /** Splitting a cart around position `i`. */
  lemma TotalAround(c: Cart, i: int)
    requires 0 <= i < |c|
    ensures Total(c) == Total(c[..i]) + LineTotal(c[i]) + Total(c[i + 1..])
  {
    assert c == c[..i] + c[i..];
    TotalConcat(c[..i], c[i..]);
    TotalFrom(c, i);
  }

  /** Removing an in-range line lowers the total by that line's amount. */
  lemma TotalAfterRemove(c: Cart, index: int)
    requires 0 <= index < |c|
    ensures Total(RemoveAt(c, index)) == Total(c) - c[index].price * c[index].quantity as real
  {
    TotalAround(c, index);
    TotalConcat(c[..index], c[index + 1..]);
  }

  /** Replacing one line changes the total by the difference of the two
      lines' amounts. */
  lemma TotalAfterReplace(c: Cart, i: int, l: Line)
    requires 0 <= i < |c|
    ensures Total(c[i := l]) == Total(c) - LineTotal(c[i]) + LineTotal(l)
  {
    var r := c[i := l];
    TotalAround(c, i);
    TotalAround(r, i);
    assert r[..i] == c[..i];
    assert r[i + 1..] == c[i + 1..];
  }

  /** Changing one line's quantity changes the total by that line's amount
      at the new quantity less its amount at the old one. */
  lemma TotalAfterSetQuantity(c: Cart, index: int, quantity: int)
    requires 0 <= index < |c| && quantity > 0
    ensures Total(SetQuantity(c, index, quantity))
            == Total(c) - LineTotal(c[index]) + c[index].price * quantity as real
  {
    var l := c[index].(quantity := quantity);
    SetQuantityReplaces(c, index, quantity);
    TotalAfterReplace(c, index, l);
    assert LineTotal(l) == c[index].price * quantity as real;
  }

  lemma SetQuantityReplaces(c: Cart, index: int, quantity: int)
    requires 0 <= index < |c| && quantity > 0
    ensures SetQuantity(c, index, quantity) == c[index := c[index].(quantity := quantity)]
  {
  }

  /** Every cart view keeps all quantities positive. */
  lemma CartViewsKeepWellFormed(s: Session, products: map<nat, Product>, variants: map<nat, Variant>,
                                productId: nat, variantId: Option<nat>,
                                isPost: bool, index: int, quantity: Option<int>)
    requires WellFormed(CartOf(s))
    requires productId in products
    requires variantId.Some? ==> variantId.value in variants
    ensures WellFormed(CartOf(AddToCart(s, products, variants, productId, variantId)))
    ensures WellFormed(CartOf(RemoveFromCart(s, index)))
    ensures WellFormed(CartOf(UpdateCartQuantity(s, isPost, index, quantity)))
  {
  }
}

=== FILE: catalog.dfy ===
/** The filters of `product_list` (shop/views.py): each filter that is
    present narrows the product query in turn. */
module Catalog {
  import opened Wrappers
  import opened Text
  import opened Models

  /** The listing's query parameters. An empty search means no search; the
      other filters are absent when their parameter is empty. */
  datatype Query = Query(search: string, category: Option<nat>,
                         minPrice: Option<Money>, maxPrice: Option<Money>)

  /** One narrowing step of the product query. */
  datatype Criterion =
    | NameContains(text: string)
    | InCategory(id: nat)
    | PriceAtLeast(bound: Money)
    | PriceAtMost(bound: Money)

  predicate Satisfies(p: Product, c: Criterion) {
    match c
    case NameContains(t) => IContains(p.name, t)
    case InCategory(id) => p.category == id
    case PriceAtLeast(b) => p.price >= b
    case PriceAtMost(b) => p.price <= b
  }

  /** The narrowing steps the view applies, in the order it applies them. */
  function Criteria(q: Query): seq<Criterion> {
    (if q.search != "" then [NameContains(q.search)] else [])
    + (if q.category.Some? then [InCategory(q.category.value)] else [])
    + (if q.minPrice.Some? then [PriceAtLeast(q.minPrice.value)] else [])
    + (if q.maxPrice.Some? then [PriceAtMost(q.maxPrice.value)] else [])
  }

  /** `.filter(...)` with one criterion: the products that satisfy it, in
      their original order. */
  function Keep(ps: seq<Product>, c: Criterion): (r: seq<Product>)
    ensures |r| <= |ps|
    ensures forall p :: p in r <==> p in ps && Satisfies(p, c)
  {
    if |ps| == 0 then []
    else (if Satisfies(ps[0], c) then [ps[0]] else []) + Keep(ps[1..], c)
  }

  /** A chain of `.filter(...)` calls. */
  function Narrow(ps: seq<Product>, cs: seq<Criterion>): seq<Product>
    decreases |cs|
  {
    if |cs| == 0 then ps else Narrow(Keep(ps, cs[0]), cs[1..])
  }

  predicate SatisfiesAll(p: Product, cs: seq<Criterion>) {
    forall i :: 0 <= i < |cs| ==> Satisfies(p, cs[i])
  }

  /** A single pass keeping the products that satisfy every criterion. */
  function Select(ps: seq<Product>, cs: seq<Criterion>): seq<Product> {
    if |ps| == 0 then []
    else (if SatisfiesAll(ps[0], cs) then [ps[0]] else []) + Select(ps[1..], cs)
  }

  /** When a product matches the listing query: every present filter holds
      of it and an absent filter imposes nothing. */
  predicate Matches(p: Product, q: Query) {
    && (q.search == "" || IContains(p.name, q.search))
    && (q.category.None? || p.category == q.category.value)
    && (q.minPrice.None? || p.price >= q.minPrice.value)
    && (q.maxPrice.None? || p.price <= q.maxPrice.value)
  }

  /** The products `product_list` shows for a query. */
  function ProductList(catalog: seq<Product>, q: Query): (r: seq<Product>)
    ensures forall p :: p in r <==> p in catalog && Matches(p, q)
  {
    ChainIsConjunction(catalog, Criteria(q));
    SelectMembers(catalog, Criteria(q));
    CriteriaMeaning(q);
    Narrow(catalog, Criteria(q))
  }

  // ----- Lemmas -----

  /** Filtering first by `c` and then by all of `cs` keeps exactly what one
      pass over `[c] + cs` keeps. */
  lemma {:induction false} SelectAfterKeep(ps: seq<Product>, c: Criterion, cs: seq<Criterion>)
    ensures Select(Keep(ps, c), cs) == Select(ps, [c] + cs)
    decreases |ps|
  {
    if |ps| > 0 {
      var x := ps[0];
      var head := if Satisfies(x, c) then [x] else [];
      assert Keep(ps, c) == head + Keep(ps[1..], c);
      SelectConcat(head, Keep(ps[1..], c), cs);
      SelectAfterKeep(ps[1..], c, cs);
      AllOfCons(x, c, cs);
      SelectSingle(x, cs);
      assert Select(head, cs) == if SatisfiesAll(x, [c] + cs) then [x] else [];
    }
  }

  lemma SelectSingle(x: Product, cs: seq<Criterion>)
    ensures Select([x], cs) == if SatisfiesAll(x, cs) then [x] else []
  {
    assert [x][1..] == [];
  }

  lemma AllOfCons(p: Product, c: Criterion, cs: seq<Criterion>)
    ensures SatisfiesAll(p, [c] + cs) <==> Satisfies(p, c) && SatisfiesAll(p, cs)
  {
    AllOfConcat(p, [c], cs);
    assert SatisfiesAll(p, [c]) <==> Satisfies(p, [c][0]);
  }

  /** One pass over a concatenation is the concatenation of the passes. */
  lemma {:induction false} SelectConcat(a: seq<Product>, b: seq<Product>, cs: seq<Criterion>)
    ensures Select(a + b, cs) == Select(a, cs) + Select(b, cs)
    decreases |a|
  {
    if |a| > 0 {
      assert (a + b)[1..] == a[1..] + b;
      SelectConcat(a[1..], b, cs);
    } else {
      assert a + b == b;
    }
  }

  /** With no criteria a pass keeps everything. */
  lemma {:induction false} SelectNothing(ps: seq<Product>)
    ensures Select(ps, []) == ps
    decreases |ps|
  {
    if |ps| > 0 {
      SelectNothing(ps[1..]);
      assert ps == [ps[0]] + ps[1..];
    }
  }

  /** Chained filters are the conjunction of their criteria: the view's
      result keeps, in catalog order, exactly the products that satisfy every
      present filter. */
  lemma {:induction false} ChainIsConjunction(ps: seq<Product>, cs: seq<Criterion>)
    ensures Narrow(ps, cs) == Select(ps, cs)
    decreases |cs|
  {
    if |cs| == 0 {
      SelectNothing(ps);
    } else {
      ChainIsConjunction(Keep(ps, cs[0]), cs[1..]);
      SelectAfterKeep(ps, cs[0], cs[1..]);
      assert [cs[0]] + cs[1..] == cs;
    }
  }

  /** A single pass keeps exactly the products that satisfy every criterion. */
  lemma {:induction false} SelectMembers(ps: seq<Product>, cs: seq<Criterion>)
    ensures forall p :: p in Select(ps, cs) <==> p in ps && SatisfiesAll(p, cs)
    decreases |ps|
  {
    if |ps| > 0 {
      SelectMembers(ps[1..], cs);
      assert ps == [ps[0]] + ps[1..];
    }
  }

  /** The criteria the view builds say exactly what `Matches` says. */
  lemma CriteriaMeaning(q: Query)
    ensures forall p :: SatisfiesAll(p, Criteria(q)) <==> Matches(p, q)
  {
    var cs := Criteria(q);
    forall p: Product
      ensures SatisfiesAll(p, cs) <==> Matches(p, q)
    {
      var s := if q.search != "" then [NameContains(q.search)] else [];
      var c := if q.category.Some? then [InCategory(q.category.value)] else [];
      var lo := if q.minPrice.Some? then [PriceAtLeast(q.minPrice.value)] else [];
      var hi := if q.maxPrice.Some? then [PriceAtMost(q.maxPrice.value)] else [];
      assert cs == s + c + lo + hi;
      AllOfConcat(p, s, c);
      AllOfConcat(p, s + c, lo);
      AllOfConcat(p, s + c + lo, hi);
      assert SatisfiesAll(p, s) <==> (q.search == "" || IContains(p.name, q.search)) by {
        if q.search != "" { assert s[0] == NameContains(q.search); }
      }
      assert SatisfiesAll(p, c) <==> (q.category.None? || p.category == q.category.value) by {
        if q.category.Some? { assert c[0] == InCategory(q.category.value); }
      }
      assert SatisfiesAll(p, lo) <==> (q.minPrice.None? || p.price >= q.minPrice.value) by {
        if q.minPrice.Some? { assert lo[0] == PriceAtLeast(q.minPrice.value); }
      }
      assert SatisfiesAll(p, hi) <==> (q.maxPrice.None? || p.price <= q.maxPrice.value) by {
        if q.maxPrice.Some? { assert hi[0] == PriceAtMost(q.maxPrice.value); }
      }
    }
  }

  lemma AllOfConcat(p: Product, a: seq<Criterion>, b: seq<Criterion>)
    ensures SatisfiesAll(p, a + b) <==> SatisfiesAll(p, a) && SatisfiesAll(p, b)
  {
    if SatisfiesAll(p, a) && SatisfiesAll(p, b) {
      forall i | 0 <= i < |a + b|
        ensures Satisfies(p, (a + b)[i])
      {
        if i >= |a| { assert (a + b)[i] == b[i - |a|]; }
      }
    }
    if SatisfiesAll(p, a + b) {
      forall i | 0 <= i < |a|
        ensures Satisfies(p, a[i])
      {
        assert (a + b)[i] == a[i];
      }
      forall i | 0 <= i < |b|
        ensures Satisfies(p, b[i])
      {
        assert (a + b)[|a| + i] == b[i];
      }
    }
  }

  /** With every filter absent the listing is the whole catalog, in order. */
  lemma NoFiltersListEverything(catalog: seq<Product>)
    ensures ProductList(catalog, Query("", None, None, None)) == catalog
  {
    assert Criteria(Query("", None, None, None)) == [];
  }

  /** The search ignores case: searching for the upper-cased text finds the
      same products. */
  lemma SearchIgnoresCase(catalog: seq<Product>, q: Query)
    ensures ProductList(catalog, q.(search := Upper(q.search))) == ProductList(catalog, q)
  {
    LowerOfUpper(q.search);
    var u := q.(search := Upper(q.search));
    ChainIsConjunction(catalog, Criteria(u));
    ChainIsConjunction(catalog, Criteria(q));
    CriteriaMeaning(u);
    CriteriaMeaning(q);
    assert forall p :: Matches(p, u) <==> Matches(p, q);
    SelectSamePredicate(catalog, Criteria(u), Criteria(q));
  }

  /** Two criteria lists that accept the same products select the same
      products. */
  lemma {:induction false} SelectSamePredicate(ps: seq<Product>, cs: seq<Criterion>, ds: seq<Criterion>)
    requires forall p :: SatisfiesAll(p, cs) <==> SatisfiesAll(p, ds)
    ensures Select(ps, cs) == Select(ps, ds)
    decreases |ps|
  {
    if |ps| > 0 {
      SelectSamePredicate(ps[1..], cs, ds);
    }
  }
}

=== FILE: checkout.dfy ===
/** The `checkout` view (shop/views.py) as a step function over the
    session and the coupon and order tables. A POST takes exactly one of
    three branches, tested in order: remove the coupon, apply a coupon,
    place the order. A GET only reads. */
module Checkout {
  import opened Wrappers
  import opened Text
  import opened Models
  import opened SessionCart

  /** The persistent tables the view touches. Coupons are keyed by their
      unique code; an order's id is its position in `orders`. */
  datatype Store = Store(coupons: map<string, Coupon>, orders: seq<Order>, items: seq<OrderItem>)

  /** The submitted checkout form. The two markers say whether the
      `remove_coupon` / `apply_coupon` fields are present; an absent
      `coupon_code` is the empty string. */
  datatype Form = Form(removeCoupon: bool, applyCoupon: bool, couponCode: string, contact: Contact)

  datatype Request = Get | Post(form: Form)

  /** The message a rendered checkout page carries. */
  datatype Notice = NoNotice | CouponRemoved | CouponApplied(code: string) | CouponExpired | CouponUnknown

  /** The values handed to the checkout template; `None` for a key the
      branch does not supply. */
  datatype Page = Page(cart: Cart, total: Money, couponCode: Option<string>,
                       couponDiscount: Option<Money>, finalTotal: Option<Money>, notice: Notice)

  datatype Response = Render(page: Page) | RedirectToOrder(orderId: nat)

  datatype Outcome = Outcome(session: Session, store: Store, response: Response)

  /** The session's coupon code, if any, names a stored coupon. */
  predicate CodeKnown(s: Session, store: Store) {
    CouponCodeOf(s) == "" || CouponCodeOf(s) in store.coupons
  }

  /** What the source needs to avoid an unhandled lookup failure: placing an
      order looks the session's coupon up without a fallback. */
  predicate CanHandle(s: Session, store: Store, req: Request) {
    req.Post? && !req.form.removeCoupon && !req.form.applyCoupon ==> CodeKnown(s, store)
  }

  /** The order item snapshotting one cart line. */
  function ItemOf(l: Line, orderId: nat): OrderItem {
    OrderItem(orderId, l.productName, l.variantText, l.price, l.quantity)
  }

  /** The order items created for a cart, one per line, in cart order. */
  function ItemsFor(c: Cart, orderId: nat): (r: seq<OrderItem>)
    ensures |r| == |c|
    ensures forall i :: 0 <= i < |c| ==>
              && r[i].order == orderId && r[i].productName == c[i].productName
              && r[i].variantText == c[i].variantText && r[i].price == c[i].price
              && r[i].quantity == c[i].quantity
  {
    if |c| == 0 then [] else [ItemOf(c[0], orderId)] + ItemsFor(c[1..], orderId)
  }

  /** The amount a list of order items adds up to. */
  function ItemsTotal(items: seq<OrderItem>): Money {
    if |items| == 0 then 0.0 else items[0].price * items[0].quantity as real + ItemsTotal(items[1..])
  }

  // ----- The four branches -----

  /** POST with `remove_coupon`: the session forgets the coupon. */
  function RemoveCoupon(s: Session, store: Store): (r: Outcome)
    ensures r.store == store && r.session.cart == s.cart
    ensures CouponCodeOf(r.session) == "" && StoredDiscount(r.session) == 0.0
    ensures r.response.Render? && r.response.page.notice == CouponRemoved
    ensures r.response.page.cart == CartOf(s) && r.response.page.total == Total(CartOf(s))
  {
    var c := CartOf(s);
    Outcome(s.(couponCode := Some(""), couponDiscount := Some(0.0)), store,
            Render(Page(c, Total(c), None, None, None, CouponRemoved)))
  }

  /** POST with `apply_coupon`: the entered code, trimmed and upper-cased,
      is stored with its discount on the current total when it names a
      coupon valid at `now`; otherwise nothing changes and an error shows. */
  function ApplyCoupon(s: Session, store: Store, entered: string, now: Instant): (r: Outcome)
    ensures r.store == store && r.session.cart == s.cart
    ensures r.response.Render? && r.response.page.total == Total(CartOf(s))
    ensures var code := NormalizeCode(entered);
            code !in store.coupons ==> r.session == s && r.response.page.notice == CouponUnknown
    ensures var code := NormalizeCode(entered);
            code in store.coupons && !IsValid(store.coupons[code], now) ==>
              r.session == s && r.response.page.notice == CouponExpired
    ensures var code := NormalizeCode(entered);
            code in store.coupons && IsValid(store.coupons[code], now) ==>
              && CouponCodeOf(r.session) == code
              && StoredDiscount(r.session) == DiscountAmount(store.coupons[code], Total(CartOf(s)))
              && r.response.page.notice == CouponApplied(code)
              && r.response.page.finalTotal == Some(Total(CartOf(s)) - StoredDiscount(r.session))
  {
    var code := NormalizeCode(entered);
    var c := CartOf(s);
    var total := Total(c);
    if code !in store.coupons then
      Outcome(s, store, Render(Page(c, total, None, None, None, CouponUnknown)))
    else if !IsValid(store.coupons[code], now) then
      Outcome(s, store, Render(Page(c, total, None, None, None, CouponExpired)))
    else
      var d := DiscountAmount(store.coupons[code], total);
      Outcome(s.(couponCode := Some(code), couponDiscount := Some(d)), store,
              Render(Page(c, total, Some(code), Some(d), Some(total - d), CouponApplied(code))))
  }

  /** POST without either marker: one order for the cart total less the
      stored discount, one item per cart line, one more use of the stored
      coupon (without checking it again), and an emptied session. */
  function PlaceOrder(s: Session, store: Store, contact: Contact, user: Option<nat>, now: Instant): (r: Outcome)
    requires CodeKnown(s, store)
    ensures var n := |store.orders|;
            && |r.store.orders| == n + 1 && r.store.orders[..n] == store.orders
            && r.store.orders[n].totalAmount == Total(CartOf(s)) - StoredDiscount(s)
            && r.store.orders[n].contact == contact && r.store.orders[n].user == user
            && r.store.orders[n].status == Pending && r.store.orders[n].createdAt == now
    ensures var m := |store.items|;
            && |r.store.items| == m + |CartOf(s)| && r.store.items[..m] == store.items
            && r.store.items[m..] == ItemsFor(CartOf(s), |store.orders|)
    ensures r.store.coupons.Keys == store.coupons.Keys
    ensures forall k :: k in store.coupons && k != CouponCodeOf(s) ==> r.store.coupons[k] == store.coupons[k]
    ensures CouponCodeOf(s) != "" ==>
              r.store.coupons[CouponCodeOf(s)] == Used(store.coupons[CouponCodeOf(s)])
    ensures CouponCodeOf(s) == "" ==> r.store.coupons == store.coupons
    ensures CartOf(r.session) == [] && r.session.cart.Some?
    ensures CouponCodeOf(r.session) == "" && StoredDiscount(r.session) == 0.0
    ensures r.response == RedirectToOrder(|store.orders|)
  {
    var c := CartOf(s);
    var id := |store.orders|;
    var order := Order(user, contact, Total(c) - StoredDiscount(s), Pending, now);
    var code := CouponCodeOf(s);
    var coupons := if code != "" then store.coupons[code := Used(store.coupons[code])] else store.coupons;
    Outcome(Session(Some([]), Some(""), Some(0.0)),
            Store(coupons, store.orders + [order], store.items + ItemsFor(c, id)),
            RedirectToOrder(id))
  }

  /** GET: nothing changes; the discount shown is recomputed on the current
      total when the stored code names a coupon still valid at `now`, and is
      0 otherwise. The stored discount is not consulted. */
  function ShowCheckout(s: Session, store: Store, now: Instant): (r: Outcome)
    ensures r.session == s && r.store == store
    ensures r.response.Render? && r.response.page.notice == NoNotice
    ensures r.response.page.cart == CartOf(s) && r.response.page.total == Total(CartOf(s))
    ensures r.response.page.couponCode == Some(CouponCodeOf(s))
    ensures r.response.page.couponDiscount.Some? && r.response.page.finalTotal.Some?
    ensures r.response.page.finalTotal.value == Total(CartOf(s)) - r.response.page.couponDiscount.value
    ensures var code := CouponCodeOf(s);
            code != "" && code in store.coupons && IsValid(store.coupons[code], now) ==>
              r.response.page.couponDiscount.value == DiscountAmount(store.coupons[code], Total(CartOf(s)))
    ensures var code := CouponCodeOf(s);
            !(code != "" && code in store.coupons && IsValid(store.coupons[code], now)) ==>
              r.response.page.couponDiscount.value == 0.0
  {
    var c := CartOf(s);
    var total := Total(c);
    var code := CouponCodeOf(s);
    var d := if code != "" && code in store.coupons && IsValid(store.coupons[code], now)
             then DiscountAmount(store.coupons[code], total) else 0.0;
    Outcome(s, store, Render(Page(c, total, Some(code), Some(d), Some(total - d), NoNotice)))
  }

  /** One request to the checkout view. */
  function Step(s: Session, store: Store, req: Request, user: Option<nat>, now: Instant): (r: Outcome)
    requires CanHandle(s, store, req)
    ensures req.Get? ==> r.session == s && r.store == store
    ensures req.Post? && req.form.removeCoupon ==>
              && r.store == store && r.session.cart == s.cart
              && CouponCodeOf(r.session) == "" && StoredDiscount(r.session) == 0.0
    ensures req.Post? && req.form.removeCoupon ==>
              r.response.Render? && r.response.page.notice == CouponRemoved
    ensures req.Post? && !req.form.removeCoupon && req.form.applyCoupon ==>
              r.store == store && r.session.cart == s.cart
    ensures req.Post? && !req.form.removeCoupon && req.form.applyCoupon ==>
              var code := NormalizeCode(req.form.couponCode);
              var applies := code in store.coupons && IsValid(store.coupons[code], now);
              && r.response.Render?
              && (r.response.page.notice == CouponUnknown || r.response.page.notice == CouponExpired
                  || r.response.page.notice == CouponApplied(code))
              && (r.response.page.notice == CouponApplied(code) <==> applies)
              && (applies ==> CouponCodeOf(r.session) == code
                              && StoredDiscount(r.session) == DiscountAmount(store.coupons[code], Total(CartOf(s))))
              && (!applies ==> r.session == s)
    ensures |r.store.orders| == |store.orders| + (if r.response.RedirectToOrder? then 1 else 0)
    ensures r.response.RedirectToOrder? <==> req.Post? && !req.form.removeCoupon && !req.form.applyCoupon
  {
    match req
    case Get => ShowCheckout(s, store, now)
    case Post(f) =>
      if f.removeCoupon then RemoveCoupon(s, store)
      else if f.applyCoupon then ApplyCoupon(s, store, f.couponCode, now)
      else PlaceOrder(s, store, f.contact, user, now)
  }

  // ----- Invariants -----

  /** Every coupon is filed under its own code. */
  predicate KeyedByCode(coupons: map<string, Coupon>) {
    forall k :: k in coupons ==> coupons[k].code == k
  }

  /** Every order item belongs to an existing order. */
  predicate ItemsBelongToOrders(store: Store) {
    forall i :: 0 <= i < |store.items| ==> store.items[i].order < |store.orders|
  }

  /** The consistency every checkout and cart request preserves. */
  predicate Consistent(s: Session, store: Store) {
    && CodeKnown(s, store) && KeyedByCode(store.coupons)
    && ItemsBelongToOrders(store) && WellFormed(CartOf(s))
  }

  /** From a consistent state every checkout request can be handled and
      leads to a consistent state. */
  lemma StepPreservesConsistency(s: Session, store: Store, req: Request, user: Option<nat>, now: Instant)
    requires Consistent(s, store)
    ensures CanHandle(s, store, req)
    ensures var r := Step(s, store, req, user, now); Consistent(r.session, r.store)
  {
    var r := Step(s, store, req, user, now);
    if req.Post? && !req.form.removeCoupon && !req.form.applyCoupon {
      var n, m := |store.orders|, |store.items|;
      forall i | 0 <= i < |r.store.items|
        ensures r.store.items[i].order < |r.store.orders|
      {
        if i >= m {
          assert r.store.items[i] == r.store.items[m..][i - m];
        } else {
          assert r.store.items[i] == store.items[i];
        }
      }
    }
  }

  /** The cart views leave a consistent state consistent. */
  lemma CartViewsPreserveConsistency(s: Session, store: Store, products: map<nat, Product>,
                                     variants: map<nat, Variant>, productId: nat, variantId: Option<nat>,
                                     isPost: bool, index: int, quantity: Option<int>)
    requires Consistent(s, store)
    requires productId in products
    requires variantId.Some? ==> variantId.value in variants
    ensures Consistent(AddToCart(s, products, variants, productId, variantId), store)
    ensures Consistent(RemoveFromCart(s, index), store)
    ensures Consistent(UpdateCartQuantity(s, isPost, index, quantity), store)
  {
    CartViewsKeepWellFormed(s, products, variants, productId, variantId, isPost, index, quantity);
  }

  // ----- Properties of placing an order -----

  /** The items of an order add up to the cart total it was placed from, so
      the order total is that sum less the stored discount. */
  lemma {:induction false} ItemsTotalMatchesCart(c: Cart, orderId: nat)
    ensures ItemsTotal(ItemsFor(c, orderId)) == Total(c)
    decreases |c|
  {
    if |c| > 0 {
      var r := ItemsFor(c, orderId);
      assert r[1..] == ItemsFor(c[1..], orderId);
      ItemsTotalMatchesCart(c[1..], orderId);
    }
  }

  lemma PlacedOrderTotal(s: Session, store: Store, contact: Contact, user: Option<nat>, now: Instant)
    requires CodeKnown(s, store)
    ensures var r := PlaceOrder(s, store, contact, user, now);
            r.store.orders[|store.orders|].totalAmount
              == ItemsTotal(r.store.items[|store.items|..]) - StoredDiscount(s)
  {
    ItemsTotalMatchesCart(CartOf(s), |store.orders|);
  }

  /** The discount charged is the one stored when the coupon was applied,
      not the one a GET shows: with the 10% example coupon applied to a
      100.00 cart that then gains another 100.00 line, the page shows 180.00
      to pay but the order is placed for 190.00. Any entry that normalises
      to the coupon's code will do, such as " code10 ". */
  lemma StoredDiscountIsCharged(entered: string)
    requires NormalizeCode(entered) == "CODE10"
    ensures
      var line := Line(1, "Tee", 1, "Medium-Black", 100.0, 1);
      var applied := ApplyCoupon(Session(Some([line]), None, None), ExampleStore, entered, 50);
      var grown := applied.session.(cart := Some([line, line]));
      var shown := ShowCheckout(grown, ExampleStore, 50);
      var placed := PlaceOrder(grown, ExampleStore, ExampleContact, None, 50);
      && shown.response.page.finalTotal == Some(180.0)
      && placed.store.orders[0].totalAmount == 190.0
  {
    var line := Line(1, "Tee", 1, "Medium-Black", 100.0, 1);
    assert Total([line]) == 100.0;
    assert Total([line, line]) == 200.0;
    var applied := ApplyCoupon(Session(Some([line]), None, None), ExampleStore, entered, 50);
    assert StoredDiscount(applied.session) == 10.0;
    assert CouponCodeOf(applied.session) == "CODE10";
  }

  /** The usage cap is checked only when a coupon is applied: two sessions
      that both apply a coupon's last use and then both order push
      `times_used` past `max_uses`. */
  lemma UsageCapCanBeExceeded(a: Session, b: Session, store: Store, code: string,
                              contact: Contact, now: Instant)
    requires code != "" && code in store.coupons && IsValid(store.coupons[code], now)
    requires store.coupons[code].timesUsed == store.coupons[code].maxUses - 1
    requires NormalizeCode(code) == code
    ensures
      var a1 := ApplyCoupon(a, store, code, now);
      var b1 := ApplyCoupon(b, a1.store, code, now);
      var a2 := PlaceOrder(a1.session, b1.store, contact, None, now);
      var b2 := PlaceOrder(b1.session, a2.store, contact, None, now);
      b2.store.coupons[code].timesUsed == store.coupons[code].maxUses + 1
  {
  }

  /** The worked example: a 25.00 cart with a 10% coupon applied is charged
      22.50, its two lines are copied into the order, the coupon records one
      use, and the session is emptied. */
  const ExampleCoupon := Coupon("CODE10", "percentage", 10.0, 0, 100, true, 100, 0)
  const ExampleStore := Store(map["CODE10" := ExampleCoupon], [], [])
  const ExampleCart := [Line(1, "Hoodie", 2, "Large-Red", 10.0, 2), Line(3, "Cap", 4, "Small-Blue", 5.0, 1)]
  const ExampleContact := Contact("A", "a@b", "1", "x", "y", "z")

  lemma CheckoutScenario()
    ensures
      var applied := ApplyCoupon(Session(Some(ExampleCart), None, None), ExampleStore, " code10 ", 50);
      var placed := PlaceOrder(applied.session, applied.store, ExampleContact, None, 50);
      && applied.response.page.finalTotal == Some(22.5)
      && StoredDiscount(applied.session) == 2.5
      && placed.store.orders[0].totalAmount == 22.5
      && placed.store.items == [OrderItem(0, "Hoodie", "Large-Red", 10.0, 2),
                                OrderItem(0, "Cap", "Small-Blue", 5.0, 1)]
      && placed.store.coupons["CODE10"].timesUsed == 1
      && CartOf(placed.session) == [] && CouponCodeOf(placed.session) == ""
  {
    NormalizeCode10Example();
    ExampleApply(" code10 ");
    var applied := ApplyCoupon(Session(Some(ExampleCart), None, None), ExampleStore, " code10 ", 50);
    ExamplePlace(applied.session);
  }

  lemma ExampleApply(entered: string)
    requires NormalizeCode(entered) == "CODE10"
    ensures
      var applied := ApplyCoupon(Session(Some(ExampleCart), None, None), ExampleStore, entered, 50);
      && CartOf(applied.session) == ExampleCart
      && CouponCodeOf(applied.session) == "CODE10" && StoredDiscount(applied.session) == 2.5
      && applied.store == ExampleStore
      && applied.response.page.finalTotal == Some(22.5)
  {
    ExampleTotal();
    assert IsValid(ExampleCoupon, 50);
    assert DiscountAmount(ExampleCoupon, 25.0) == 2.5;
  }

  lemma ExampleTotal()
    ensures Total(ExampleCart) == 25.0
  {
  }

  lemma ExamplePlace(s: Session)
    requires CartOf(s) == ExampleCart && CouponCodeOf(s) == "CODE10" && StoredDiscount(s) == 2.5
    ensures
      var placed := PlaceOrder(s, ExampleStore, ExampleContact, None, 50);
      && placed.store.orders[0].totalAmount == 22.5
      && placed.store.items == [OrderItem(0, "Hoodie", "Large-Red", 10.0, 2),
                                OrderItem(0, "Cap", "Small-Blue", 5.0, 1)]
      && placed.store.coupons["CODE10"].timesUsed == 1
      && CartOf(placed.session) == [] && CouponCodeOf(placed.session) == ""
  {
    ExampleTotal();
    var placed := PlaceOrder(s, ExampleStore, ExampleContact, None, 50);
    assert placed.store.items == ItemsFor(ExampleCart, 0);
  }
}

=== FILE: models.dfy ===
/** The storefront's records (shop/models.py): catalog entries, orders,
    reviews, coupons, the closed choice sets, and the two coupon rules.
    Money is an exact `real` standing in for `Decimal`; instants are
    integers and the current instant is always passed in. */
module Models {
  import opened Wrappers

  type Money = real
  type Instant = int

  // ----- Closed choice sets -----

  datatype Size = Small | Medium | Large | ExtraLarge

  /** The value stored in `ProductVariant.size`. */
  function SizeCode(s: Size): string {
    match s
    case Small => "S"
    case Medium => "M"
    case Large => "L"
    case ExtraLarge => "XL"
  }

  /** What `get_size_display()` shows. */
  function SizeLabel(s: Size): string {
    match s
    case Small => "Small"
    case Medium => "Medium"
    case Large => "Large"
    case ExtraLarge => "Extra Large"
  }

  function ParseSize(code: string): (r: Option<Size>)
    ensures r.Some? ==> SizeCode(r.value) == code
    ensures forall s :: SizeCode(s) == code ==> r == Some(s)
  {
    if code == "S" then Some(Small)
    else if code == "M" then Some(Medium)
    else if code == "L" then Some(Large)
    else if code == "XL" then Some(ExtraLarge)
    else None
  }

  datatype Color = Black | White | Red | Blue

  /** The value stored in `ProductVariant.color`. */
  function ColorCode(c: Color): string {
    match c
    case Black => "black"
    case White => "white"
    case Red => "red"
    case Blue => "blue"
  }

  /** What `get_color_display()` shows. */
  function ColorLabel(c: Color): string {
    match c
    case Black => "Black"
    case White => "White"
    case Red => "Red"
    case Blue => "Blue"
  }

  function ParseColor(code: string): (r: Option<Color>)
    ensures r.Some? ==> ColorCode(r.value) == code
    ensures forall c :: ColorCode(c) == code ==> r == Some(c)
  {
    if code == "black" then Some(Black)
    else if code == "white" then Some(White)
    else if code == "red" then Some(Red)
    else if code == "blue" then Some(Blue)
    else None
  }

  datatype OrderStatus = Pending | Shipped | Delivered | Cancelled

  /** The value stored in `Order.status`. */
  function StatusCode(s: OrderStatus): string {
    match s
    case Pending => "pending"
    case Shipped => "shipped"
    case Delivered => "delivered"
    case Cancelled => "cancelled"
  }

  function ParseStatus(code: string): (r: Option<OrderStatus>)
    ensures r.Some? ==> StatusCode(r.value) == code
    ensures forall s :: StatusCode(s) == code ==> r == Some(s)
  {
    if code == "pending" then Some(Pending)
    else if code == "shipped" then Some(Shipped)
    else if code == "delivered" then Some(Delivered)
    else if code == "cancelled" then Some(Cancelled)
    else None
  }

  datatype Rating = Poor | Fair | Good | VeryGood | Excellent

  /** The integer stored in `Review.rating`. */
  function RatingValue(r: Rating): int {
    match r
    case Poor => 1
    case Fair => 2
    case Good => 3
    case VeryGood => 4
    case Excellent => 5
  }

  /** The declared choice a stored rating stands for, if any. */
  function ParseRating(n: int): (r: Option<Rating>)
    ensures r.Some? <==> 1 <= n <= 5
    ensures r.Some? ==> RatingValue(r.value) == n
  {
    if n == 1 then Some(Poor)
    else if n == 2 then Some(Fair)
    else if n == 3 then Some(Good)
    else if n == 4 then Some(VeryGood)
    else if n == 5 then Some(Excellent)
    else None
  }

  datatype DiscountType = Percentage | Fixed

  /** The value stored in `Coupon.discount_type`. */
  function DiscountTypeCode(t: DiscountType): string {
    match t
    case Percentage => "percentage"
    case Fixed => "fixed"
  }

  /** How `get_discount_amount` reads a stored discount type: only the exact
      text "percentage" selects the percentage rule; anything else is treated
      as a fixed amount. */
  function DiscountTypeOf(code: string): (t: DiscountType)
    ensures t == Percentage <==> code == DiscountTypeCode(Percentage)
    ensures forall d :: DiscountTypeCode(d) == code ==> t == d
  {
    if code == "percentage" then Percentage else Fixed
  }

  // ----- Records -----

  datatype Category = Category(id: nat, name: string)

  datatype Product = Product(id: nat, name: string, description: string, price: Money,
                             category: nat, image: string)

  datatype Variant = Variant(id: nat, product: nat, size: Size, color: Color, stock: int)

  /** The `variant_text` a cart line and an order item carry: the size and
      colour labels joined by a dash, e.g. "Medium-Black". */
  function VariantText(v: Variant): string {
    SizeLabel(v.size) + "-" + ColorLabel(v.color)
  }

  /** Contact and address fields submitted with an order. */
  datatype Contact = Contact(name: string, email: string, phone: string,
                             address: string, city: string, postalCode: string)

  /** An order; its id is its position in the order table. */
  datatype Order = Order(user: Option<nat>, contact: Contact, totalAmount: Money,
                         status: OrderStatus, createdAt: Instant)

  /** A snapshot of one cart line, owned by the order with id `order`. */
  datatype OrderItem = OrderItem(order: nat, productName: string, variantText: string,
                                 price: Money, quantity: int)

  /** A review; `rating` is the integer as stored. */
  datatype Review = Review(product: nat, user: nat, rating: int, comment: string,
                           createdAt: Instant)

  /** A coupon; `discountType` is the text as stored, read through
      `DiscountTypeOf`. */
  datatype Coupon = Coupon(code: string, discountType: string, discountValue: Money,
                           validFrom: Instant, validUntil: Instant, isActive: bool,
                           maxUses: int, timesUsed: int)

  // ----- Coupon rules -----

  /** `Coupon.is_valid()` evaluated at instant `now`. */
  predicate IsValid(c: Coupon, now: Instant): (b: bool)
    ensures b ==> c.isActive && c.timesUsed < c.maxUses
    ensures b ==> c.validFrom <= now <= c.validUntil && c.validFrom <= c.validUntil
  {
    c.isActive && c.validFrom <= now <= c.validUntil && c.timesUsed < c.maxUses
  }

  /** `Coupon.get_discount_amount(total)`. */
  function DiscountAmount(c: Coupon, total: Money): (r: Money)
    ensures DiscountTypeOf(c.discountType) == Percentage ==> r * 100.0 == total * c.discountValue
    ensures DiscountTypeOf(c.discountType) == Fixed ==> r == c.discountValue
  {
    if DiscountTypeOf(c.discountType) == Percentage then (total * c.discountValue) / 100.0
    else c.discountValue
  }

  /** The coupon recording one more use. */
  function Used(c: Coupon): (u: Coupon)
    ensures u.timesUsed == c.timesUsed + 1
    ensures u.(timesUsed := c.timesUsed) == c
  {
    c.(timesUsed := c.timesUsed + 1)
  }

  /** Each of the three conditions is necessary for validity. */
  lemma InvalidityConditions(c: Coupon, now: Instant)
    ensures !c.isActive ==> !IsValid(c, now)
    ensures now < c.validFrom || now > c.validUntil ==> !IsValid(c, now)
    ensures c.timesUsed >= c.maxUses ==> !IsValid(c, now)
  {
  }

  /** Together the three conditions suffice, and both ends of the window
      count as inside it. */
  lemma ValidityConditions(c: Coupon, now: Instant)
    requires c.isActive && c.timesUsed < c.maxUses
    ensures c.validFrom <= now <= c.validUntil ==> IsValid(c, now)
    ensures c.validFrom <= c.validUntil ==> IsValid(c, c.validFrom) && IsValid(c, c.validUntil)
  {
  }

  /** Recording a use never revalidates a coupon, and a coupon one use short
      of its cap is exhausted by that use. */
  lemma UseTowardsCap(c: Coupon, now: Instant)
    ensures IsValid(Used(c), now) ==> IsValid(c, now)
    ensures c.timesUsed == c.maxUses - 1 ==> !IsValid(Used(c), now)
  {
  }

  /** A percentage discount is the linear function of the total that gives
      `discount_value` on a total of 100: it is additive and scales with
      the total. */
  lemma PercentageDiscountIsLinear(c: Coupon, a: Money, b: Money, k: real)
    requires DiscountTypeOf(c.discountType) == Percentage
    ensures DiscountAmount(c, 100.0) == c.discountValue
    ensures DiscountAmount(c, a + b) == DiscountAmount(c, a) + DiscountAmount(c, b)
    ensures DiscountAmount(c, k * a) == k * DiscountAmount(c, a)
  {
    assert (k * a) * c.discountValue == k * (a * c.discountValue);
  }

  /** A rate between 0 and 100 applied to a non-negative total gives a
      discount between 0 and the total. */
  lemma PercentageDiscountWithinTotal(c: Coupon, total: Money)
    requires DiscountTypeOf(c.discountType) == Percentage
    requires 0.0 <= c.discountValue <= 100.0 && total >= 0.0
    ensures 0.0 <= DiscountAmount(c, total) <= total
  {
    var product := total * c.discountValue;
    assert 0.0 <= product <= total * 100.0;
    assert product / 100.0 <= (total * 100.0) / 100.0 == total;
  }

  /** A fixed discount is the same whatever the total, and is not capped: a
      total below it leaves a negative amount to pay. */
  lemma FixedDiscountIgnoresTotal(c: Coupon, a: Money, b: Money)
    requires DiscountTypeOf(c.discountType) == Fixed
    ensures DiscountAmount(c, a) == DiscountAmount(c, b) == c.discountValue
    ensures a < c.discountValue ==> a - DiscountAmount(c, a) < 0.0
  {
  }
}

=== FILE: reviews.dfy ===
/** The review upsert of `add_review` (shop/views.py): a user's second
    review of a product overwrites the first instead of adding another. The
    table is kept in creation order, so the newest review is the last. */
module Reviews {
  import opened Wrappers
  import opened Models

  predicate ByPair(r: Review, product: nat, user: nat) {
    r.product == product && r.user == user
  }

  /** Position of the newest review `user` wrote for `product`: the first
      match under the table's newest-first ordering. */
  function Newest(t: seq<Review>, product: nat, user: nat): (r: Option<nat>)
    ensures r.Some? ==> r.value < |t| && ByPair(t[r.value], product, user)
    ensures r.Some? ==> forall j :: r.value < j < |t| ==> !ByPair(t[j], product, user)
    ensures r.None? <==> forall j :: 0 <= j < |t| ==> !ByPair(t[j], product, user)
    decreases |t|
  {
    if |t| == 0 then None
    else if ByPair(t[|t| - 1], product, user) then Some(|t| - 1)
    else Newest(t[..|t| - 1], product, user)
  }

  /** How many reviews `user` wrote for `product`. */
  function Count(t: seq<Review>, product: nat, user: nat): nat {
    if |t| == 0 then 0
    else Count(t[..|t| - 1], product, user) + (if ByPair(t[|t| - 1], product, user) then 1 else 0)
  }

  /** The reviews of every other (product, user) pair, in table order. */
  function Others(t: seq<Review>, product: nat, user: nat): seq<Review> {
    if |t| == 0 then []
    else Others(t[..|t| - 1], product, user) + (if ByPair(t[|t| - 1], product, user) then [] else [t[|t| - 1]])
  }

  /** No pair has two reviews. */
  predicate OnePerPair(t: seq<Review>) {
    forall i, j :: 0 <= i < j < |t| ==>
      !(t[i].product == t[j].product && t[i].user == t[j].user)
  }

  /** A submitted review: the newest existing review of the pair gets the
      new rating and comment and keeps its creation time; without one, a new
      review created at `now` is appended. The rating is stored as sent. */
  function AddReview(t: seq<Review>, products: map<nat, Product>, productId: nat, user: nat,
                     rating: int, comment: string, now: Instant): (r: seq<Review>)
    requires productId in products
    ensures Newest(t, productId, user).Some? ==>
              var i := Newest(t, productId, user).value;
              && |r| == |t| && Newest(r, productId, user) == Some(i)
              && r[i].createdAt == t[i].createdAt
              && forall j :: 0 <= j < |t| && j != i ==> r[j] == t[j]
    ensures Newest(t, productId, user).None? ==>
              |r| == |t| + 1 && r[..|t|] == t && r[|t|].createdAt == now
    ensures Newest(r, productId, user).Some?
    ensures var i := Newest(r, productId, user).value;
            r[i].rating == rating && r[i].comment == comment
  {
    match Newest(t, productId, user)
    case Some(i) =>
      var r := t[i := t[i].(rating := rating, comment := comment)];
      assert Newest(r, productId, user) == Some(i) by {
        NewestIsLastMatch(r, productId, user, i);
      }
      r
    case None =>
      var r := t + [Review(productId, user, rating, comment, now)];
      assert Newest(r, productId, user) == Some(|t|);
      r
  }

  /** `Newest` finds the last match. */
  lemma NewestIsLastMatch(t: seq<Review>, product: nat, user: nat, i: nat)
    requires i < |t| && ByPair(t[i], product, user)
    requires forall j :: i < j < |t| ==> !ByPair(t[j], product, user)
    ensures Newest(t, product, user) == Some(i)
  {
  }

  // ----- Counting lemmas -----

  /** Overwriting one of the pair's reviews with another of the pair's
      keeps the pair's count and every other pair's reviews. */
  lemma {:induction false} ReplaceWithinPair(t: seq<Review>, i: nat, x: Review, product: nat, user: nat)
    requires i < |t| && ByPair(t[i], product, user) && ByPair(x, product, user)
    ensures Count(t[i := x], product, user) == Count(t, product, user)
    ensures Others(t[i := x], product, user) == Others(t, product, user)
    decreases |t|
  {
    var r := t[i := x];
    if i < |t| - 1 {
      assert r[..|r| - 1] == t[..|t| - 1][i := x];
      ReplaceWithinPair(t[..|t| - 1], i, x, product, user);
    } else {
      assert r[..|r| - 1] == t[..|t| - 1];
    }
  }

  /** Appending a review of the pair adds one to its count and leaves the
      other pairs' reviews alone. */
  lemma AppendToPair(t: seq<Review>, x: Review, product: nat, user: nat)
    requires ByPair(x, product, user)
    ensures Count(t + [x], product, user) == Count(t, product, user) + 1
    ensures Others(t + [x], product, user) == Others(t, product, user)
  {
    assert (t + [x])[..|t + [x]| - 1] == t;
  }

  /** A pair has no review exactly when its count is zero. */
  lemma {:induction false} NoneIffZero(t: seq<Review>, product: nat, user: nat)
    ensures Newest(t, product, user).None? <==> Count(t, product, user) == 0
    decreases |t|
  {
    if |t| > 0 {
      NoneIffZero(t[..|t| - 1], product, user);
      if Count(t, product, user) == 0 {
        assert forall j :: 0 <= j < |t| - 1 ==> t[..|t| - 1][j] == t[j];
      }
    }
  }

  /** In a table with one review per pair no pair counts more than one. */
  lemma {:induction false} OnePerPairCountsAtMostOne(t: seq<Review>, product: nat, user: nat)
    requires OnePerPair(t)
    ensures Count(t, product, user) <= 1
    decreases |t|
  {
    if |t| > 0 {
      var init := t[..|t| - 1];
      assert OnePerPair(init);
      OnePerPairCountsAtMostOne(init, product, user);
      if ByPair(t[|t| - 1], product, user) {
        assert forall j :: 0 <= j < |init| ==> !ByPair(init[j], product, user);
        NoneIffZero(init, product, user);
      }
    }
  }

  // ----- Properties of the upsert -----

  /** After a submission the pair has exactly one review more than before if
      it had none, and the same number otherwise; no other pair's reviews
      change. */
  lemma AddReviewCounts(t: seq<Review>, products: map<nat, Product>, productId: nat, user: nat,
                        rating: int, comment: string, now: Instant)
    requires productId in products
    ensures var r := AddReview(t, products, productId, user, rating, comment, now);
            && Count(r, productId, user) == (if Count(t, productId, user) == 0 then 1 else Count(t, productId, user))
            && Others(r, productId, user) == Others(t, productId, user)
  {
    NoneIffZero(t, productId, user);
    match Newest(t, productId, user)
    case Some(i) =>
      ReplaceWithinPair(t, i, t[i].(rating := rating, comment := comment), productId, user);
    case None =>
      AppendToPair(t, Review(productId, user, rating, comment, now), productId, user);
  }

  /** The upsert keeps the table at one review per pair. */
  lemma AddReviewKeepsOnePerPair(t: seq<Review>, products: map<nat, Product>, productId: nat, user: nat,
                                 rating: int, comment: string, now: Instant)
    requires productId in products
    requires OnePerPair(t)
    ensures OnePerPair(AddReview(t, products, productId, user, rating, comment, now))
  {
  }

  /** A run of submissions by one user for one product, in order. */
  function SubmitAll(t: seq<Review>, products: map<nat, Product>, productId: nat, user: nat,
                     subs: seq<(int, string)>, now: Instant): seq<Review>
    requires productId in products
    decreases |subs|
  {
    if |subs| == 0 then t
    else SubmitAll(AddReview(t, products, productId, user, subs[0].0, subs[0].1, now),
                   products, productId, user, subs[1..], now)
  }

  /** However many times a user reviews a product, starting from at most one
      review of theirs, exactly one remains, carrying the latest rating and
      comment, and every other pair's reviews are as they were. */
  lemma {:induction false} RepeatedReviewsLeaveOne(t: seq<Review>, products: map<nat, Product>, productId: nat,
                                                   user: nat, subs: seq<(int, string)>, now: Instant)
    requires productId in products
    requires |subs| > 0 && Count(t, productId, user) <= 1
    ensures var r := SubmitAll(t, products, productId, user, subs, now);
            && Count(r, productId, user) == 1
            && Others(r, productId, user) == Others(t, productId, user)
            && Newest(r, productId, user).Some?
            && r[Newest(r, productId, user).value].rating == subs[|subs| - 1].0
            && r[Newest(r, productId, user).value].comment == subs[|subs| - 1].1
    decreases |subs|
  {
    var t1 := AddReview(t, products, productId, user, subs[0].0, subs[0].1, now);
    AddReviewCounts(t, products, productId, user, subs[0].0, subs[0].1, now);
    if |subs| > 1 {
      RepeatedReviewsLeaveOne(t1, products, productId, user, subs[1..], now);
      assert subs[1..][|subs[1..]| - 1] == subs[|subs| - 1];
    }
  }
}

=== FILE: text.dfy ===
/** The string operations the storefront relies on: Python's whitespace
    stripping, case mapping of ASCII letters and substring search. */
module Text {

  /** The characters Python's `str.isspace()` accepts; `str.strip()` with no
      argument removes exactly these from both ends. */
  predicate IsSpace(c: char) {
    var n := c as int;
    n == 0x20 || 0x09 <= n <= 0x0D || 0x1C <= n <= 0x1F || n == 0x85 || n == 0xA0
    || n == 0x1680 || 0x2000 <= n <= 0x200A || n == 0x2028 || n == 0x2029
    || n == 0x202F || n == 0x205F || n == 0x3000
  }

  predicate AllSpace(s: string) {
    forall i :: 0 <= i < |s| ==> IsSpace(s[i])
  }

  /** `s` with its leading whitespace removed. */
  function TrimStart(s: string): (r: string)
    ensures |r| <= |s| && r == s[|s| - |r|..]
    ensures AllSpace(s[..|s| - |r|])
    ensures |r| > 0 ==> !IsSpace(r[0])
  {
    if |s| > 0 && IsSpace(s[0]) then TrimStart(s[1..]) else s
  }

  /** `s` with its trailing whitespace removed. */
  function TrimEnd(s: string): (r: string)
    ensures |r| <= |s| && r == s[..|r|]
    ensures AllSpace(s[|r|..])
    ensures |r| > 0 ==> !IsSpace(r[|r| - 1])
  {
    if |s| > 0 && IsSpace(s[|s| - 1]) then TrimEnd(s[..|s| - 1]) else s
  }

  /** `r` is the block of `s` starting at `i`, and everything around it is
      whitespace. */
  ghost predicate Surrounds(s: string, r: string, i: int) {
    0 <= i <= |s| - |r| && r == s[i..i + |r|] && AllSpace(s[..i]) && AllSpace(s[i + |r|..])
  }

  /** Python's `str.strip()`: the infix of `s` that neither starts nor ends
      with whitespace and is surrounded only by whitespace. */
  function Strip(s: string): (r: string)
    ensures |r| > 0 ==> !IsSpace(r[0]) && !IsSpace(r[|r| - 1])
    ensures exists i :: Surrounds(s, r, i)
  {
    var t := TrimStart(s);
    var r := TrimEnd(t);
    StripSurrounds(s, t, r);
    r
  }

  lemma StripSurrounds(s: string, t: string, r: string)
    requires |t| <= |s| && t == s[|s| - |t|..] && AllSpace(s[..|s| - |t|])
    requires |r| <= |t| && r == t[..|r|] && AllSpace(t[|r|..])
    ensures Surrounds(s, r, |s| - |t|)
  {
  }

  /** A string with no surrounding whitespace is its own strip. */
  lemma StripOfTrimmed(s: string)
    requires |s| > 0 ==> !IsSpace(s[0]) && !IsSpace(s[|s| - 1])
    ensures Strip(s) == s
  {
  }

  predicate IsLowerAscii(c: char) { 'a' <= c <= 'z' }

  predicate IsUpperAscii(c: char) { 'A' <= c <= 'Z' }

  function UpperChar(c: char): (u: char)
    ensures !IsLowerAscii(u)
    ensures IsSpace(u) <==> IsSpace(c)
  {
    if IsLowerAscii(c) then (c as int - 32) as char else c
  }

  function LowerChar(c: char): (l: char)
    ensures !IsUpperAscii(l)
    ensures IsUpperAscii(c) ==> l as int == c as int + 32
  {
    if IsUpperAscii(c) then (c as int + 32) as char else c
  }

  /** `str.upper()` on ASCII letters; every other character is kept. */
  function Upper(s: string): (r: string)
    ensures |r| == |s|
    ensures forall i :: 0 <= i < |s| ==> r[i] == UpperChar(s[i])
  {
    if |s| == 0 then "" else [UpperChar(s[0])] + Upper(s[1..])
  }

  /** `str.lower()` on ASCII letters; every other character is kept. */
  function Lower(s: string): (r: string)
    ensures |r| == |s|
    ensures forall i :: 0 <= i < |s| ==> r[i] == LowerChar(s[i])
  {
    if |s| == 0 then "" else [LowerChar(s[0])] + Lower(s[1..])
  }

  /** `needle` occurs in `hay` as a contiguous block. */
  predicate Contains(hay: string, needle: string) {
    exists i :: 0 <= i <= |hay| - |needle| && OccursAt(hay, needle, i)
  }

  predicate OccursAt(hay: string, needle: string, i: int) {
    0 <= i <= |hay| - |needle| && hay[i..i + |needle|] == needle
  }

  /** Case-insensitive containment, as the `icontains` lookup performs it
      on ASCII letters. */
  predicate IContains(hay: string, needle: string) {
    Contains(Lower(hay), Lower(needle))
  }

  /** Upper-casing first does not change what a case-insensitive search
      finds. */
  lemma LowerOfUpper(s: string)
    ensures Lower(Upper(s)) == Lower(s)
  {
  }

  /** `r` is the block of `s` starting at `i` with its letters upper-cased,
      and everything around that block is whitespace. */
  ghost predicate UpperBlockAt(s: string, r: string, i: int) {
    && 0 <= i <= |s| - |r| && AllSpace(s[..i]) && AllSpace(s[i + |r|..])
    && forall j :: 0 <= j < |r| ==> r[j] == UpperChar(s[i + j])
  }

  /** The coupon-code normalisation `code.strip().upper()`: the block of
      `s` left after dropping the whitespace around it, with its letters
      upper-cased. */
  function NormalizeCode(s: string): (r: string)
    ensures |r| <= |s|
    ensures forall i :: 0 <= i < |r| ==> !IsLowerAscii(r[i])
    ensures |r| > 0 ==> !IsSpace(r[0]) && !IsSpace(r[|r| - 1])
    ensures exists i :: UpperBlockAt(s, r, i)
  {
    var t := Strip(s);
    UpperOfSurrounded(s, t);
    Upper(t)
  }

  /** Upper-casing a stripped block keeps its place in the original. */
  lemma UpperOfSurrounded(s: string, t: string)
    requires exists i :: Surrounds(s, t, i)
    ensures exists i :: UpperBlockAt(s, Upper(t), i)
  {
    var i :| Surrounds(s, t, i);
    var r := Upper(t);
    assert forall j :: 0 <= j < |r| ==> t[j] == s[i + j];
    assert UpperBlockAt(s, r, i);
  }

  /** Normalising a code twice gives the code normalised once, so a code
      stored in the session is a fixed point of the normalisation. */
  lemma {:induction false} NormalizeCodeIdempotent(s: string)
    ensures NormalizeCode(NormalizeCode(s)) == NormalizeCode(s)
  {
    var n := NormalizeCode(s);
    StripOfTrimmed(n);
    assert Strip(n) == n;
    assert Upper(n) == n;
  }

  /** Stripping removes one blank on each side of a trimmed string. */
  lemma StripDropsPadding(t: string)
    requires |t| > 0 && !IsSpace(t[0]) && !IsSpace(t[|t| - 1])
    ensures Strip(" " + t + " ") == t
  {
    var s := " " + t + " ";
    assert s[1..] == t + " ";
    assert TrimStart(t + " ") == t + " ";
    assert TrimStart(s) == t + " ";
    assert (t + " ")[..|t|] == t;
    assert TrimEnd(t) == t;
    assert TrimEnd(t + " ") == t;
  }

  /** A worked normalisation: surrounding blanks are dropped and letters
      upper-cased. */
  lemma NormalizeCode10Example()
    ensures NormalizeCode(" code10 ") == "CODE10"
  {
    StripDropsPadding("code10");
    assert " code10 " == " " + "code10" + " ";
    var u := Upper("code10");
    assert u[0] == 'C' && u[1] == 'O' && u[2] == 'D' && u[3] == 'E' && u[4] == '1' && u[5] == '0';
  }
}

=== FILE: wrappers.dfy ===
/** Optional values: the model's stand-in for Python's `None` and for
    session keys that may be absent. */
module Wrappers {

  datatype Option<+T> = None | Some(value: T) {

    /** The contained value, or `default` when there is none (Python's
        `dict.get(key, default)`). */
    function GetOr(default: T): T {
      match this
      case Some(v) => v
      case None => default
    }
  }
}
